=== FILE: README.md ===
# Bank transfer bulk upload: disbursement transformation

This project models the one piece of business logic in `strealing.py`, the
Streamlit page that turns a disbursement schedule into a bulk-upload CSV for a
payment provider. The page reads a spreadsheet whose last row holds the
declared grand total. It sums the `Net Value` of every other row, rounds the
sum, and warns when the declared total differs. It then drops every row with a
missing cell and looks up each upper-cased `Bank Name` in a static 24-entry
sort-code table. It renames the columns, attaches the operator's remark to
every row, and writes `account_number` and `bank_code` as `="..."` text cells.

The model is a set of pure functions over a parsed sheet:

- `Sheet` holds the parsed sheet. `Columns` records which of `Account Number`,
  `Net Value` and `Bank Name` the header has. Each `Row` has `Option` cells
  for those three columns and `others` for every other column.
- `Totals` holds the total check. Python's `round` is modelled as
  half-to-even rounding in `Rounding`.
- `BankCodes` holds the sort-code table as a `map<string, string>` and the
  lookup. `Ascii` holds the upper-casing.
- `Upload` holds the preview and export rows, the column layout and
  `Upload.Run`, which is the whole of `run()` after parsing. `Run` returns
  either a halt with its reason or the total check report, the preview table
  and the exported cells.
- `Scenarios` holds two worked uploads. `TotalRow` holds the finding below.

Some consequences of the code that the model keeps:

- The export column order is `account_number, tra_amt, remarks, bank_code`.
  `insert(2, ...)` places `remarks` after the renamed `Net Value` column.
- `dropna` removes the total row only when that row has a missing cell (see
  Findings).
- The caught `KeyError` covers only a missing `Net Value` column. A missing
  `Account Number` or `Bank Name` column raises at the column selection on
  line 58, after the total check has been shown.
- An empty sheet halts at the total check, because there is no row labelled
  -1 to read the declared total from.
- A `Bank Name` column with no value in any row is read as a numeric column.
  `.str.upper()` on line 62 then raises, after the total check has been
  shown.
- When `dropna` keeps no row, `bank_code` is built from an empty list and
  gets a numeric type. Prepending `="` to it on line 83 then raises, so no
  file is offered, after the total check has been shown.

## Model

| member | source | states |
|---|---|---|
| Ascii.UpperIdempotent | strealing.py:62 | an upper-cased name has no lower-case letter, and upper-casing it again changes nothing |
| Ascii.UpperKeepsUpperCase | strealing.py:62 | a name without lower-case letters is its own upper-case form |
| Ascii.UpperChangesLowerCase | strealing.py:62 | a name with a lower-case letter is changed by upper-casing |
| Ascii.UpperIgnoresCase | strealing.py:62 | the lower-cased and the original spelling of a name upper-case to the same text |
| Rounding.RoundHalfEven | strealing.py:46 | `round` gives an integer within one half of the sum, and on a tie the even one |
| Rounding.RoundHalfEvenUnique | strealing.py:46 | those two conditions determine the rounded value uniquely |
| Rounding.RoundOfInteger | strealing.py:46 | rounding a whole amount returns it unchanged |
| BankCodes.TableCodesAreSortCodes | strealing.py:12-18 | every code in the table is six decimal digits |
| BankCodes.EcobankSynonyms | strealing.py:13 | ECO BANK and ECOBANK both map to 000010 |
| BankCodes.FcmbSynonyms | strealing.py:13-14 | FCMB and FIRST CITY MONUMENT BANK both map to 000003 |
| BankCodes.GtbankSynonyms | strealing.py:14 | GTBANK PLC and GTBANK both map to 000013 |
| BankCodes.UbaSynonyms | strealing.py:16 | UNITED BANK FOR AFRICA and UBA both map to 000004 |
| BankCodes.LookupSortCode | strealing.py:61-64 | a code is found exactly when the upper-cased name is a key, the found code is that key's table entry and is six digits, and a miss is an absent code rather than an error |
| BankCodes.LookupIgnoresCase | strealing.py:62-63 | two names that upper-case alike get the same code or both get none |
| BankCodes.LookupCaseVariants | strealing.py:62-63 | a name, its lower-case and its upper-case spelling resolve to the same code |
| BankCodes.LookupMixedCase | strealing.py:61-64 | "Gtbank" resolves to 000013 and "uba" to 000004 |
| BankCodes.LookupUnknownBank | strealing.py:61-64 | "Opay", which is not in the table, gets no code |
| Sheet.CompleteRowIsFilled | strealing.py:57-58 | with all three columns present, a row `dropna` keeps has an account number, an amount and a bank name |
| Sheet.DropIncomplete | strealing.py:57 | keeps only rows without a missing cell, and never more rows than given |
| Sheet.DropIncompleteMembers | strealing.py:57 | a row is kept exactly when it is in the sheet and has no missing cell |
| Sheet.DropIncompleteAppend | strealing.py:57 | the filter decides row by row and keeps survivors in input order |
| Sheet.DropIncompleteKeepsAll | strealing.py:57 | nothing is dropped exactly when no row has a missing cell |
| Sheet.DropIncompleteEmpty | strealing.py:57 | everything is dropped exactly when every row has a missing cell |
| Sheet.KeptIndices | strealing.py:57 | the positions of the kept rows, strictly increasing, each without a missing cell, covering every such row |
| Sheet.DropIncompleteAtKeptIndices | strealing.py:57 | the k-th kept row is the row at the k-th kept position |
| Totals.NetSumAppend | strealing.py:46 | the sum over two blocks of rows is the sum of the two sums |
| Totals.NetSumOfMissing | strealing.py:46 | missing `Net Value`s contribute nothing to the sum |
| Totals.SumNetValues | strealing.py:46 | the left-to-right reduction equals the sum of the present `Net Value`s |
| Totals.CheckTotal | strealing.py:45-55 | a missing `Net Value` column or an empty sheet halts; otherwise the declared total is the last row's unrounded cell, and the computed total is within one half of the line items' sum and even when the sum lies exactly halfway |
| Totals.CheckTotalWarnsIff | strealing.py:46-50 | a warning is raised exactly when the declared total is missing or differs from the half-to-even rounded sum of all rows but the last |
| Totals.FractionalTotalAlwaysWarns | strealing.py:47-50 | a declared total with a fractional part always warns, because it is compared unrounded |
| Totals.ExactWholeTotalPasses | strealing.py:46-49 | a whole declared total equal to the line items' sum raises no warning |
| Upload.DropColumn | strealing.py:80 | dropping a column removes that label and keeps every other one |
| Upload.DropColumnAppend | strealing.py:80 | dropping a column from two joined header blocks drops it from each, so the remaining labels keep their order |
| Upload.ColumnLayout | strealing.py:58-80 | the preview columns are account_number, tra_amt, remarks, Bank Name, bank_code; the export columns are the same without Bank Name |
| Upload.UnwrapWrap | strealing.py:82-83 | a `="..."` cell reads back as the original value |
| Upload.WrapInjective | strealing.py:82-83 | distinct values give distinct cells |
| Upload.ExportRecoversPreview | strealing.py:79-83 | each export cell decodes back to its preview value, and an absent bank code stays absent |
| Upload.MissingSelected | strealing.py:58 | lists exactly the selected columns the header lacks, and nothing else |
| Upload.Produce | strealing.py:58-83 | builds one preview row and one export row per kept row and carries the total check report |
| Upload.RunHaltsIff | strealing.py:45-83 | a run halts exactly when a required column is missing, the sheet is empty, `Bank Name` has no value in any row or `dropna` keeps no row, and the reason depends on which check fails first |
| Upload.MismatchIsNonFatal | strealing.py:46-83 | replacing the declared total by any value, or by none, changes neither whether the total check runs nor the computed total; when the cell stays present (or absent), whether output is produced does not change either |
| Upload.RunRowMapping | strealing.py:57-83 | the k-th output row comes from the k-th kept row, with that row's amount, the one remark, the lookup of its bank name, and wrapped account number and code |
| Upload.RunOutputSize | strealing.py:57 | there are at most as many output rows as sheet rows, and exactly as many when no row has a missing cell |
| Upload.ExportedCodesAreSortCodes | strealing.py:61-83 | a present exported code is the wrapped table entry of the upper-cased bank name, a six-digit code, and an absent one means the bank name is unknown |
| Scenarios.PayrollBankCodes | strealing.py:61-64 | ZENITH BANK resolves to 000015 and UBA to 000004 |
| Scenarios.PayrollKeptRows | strealing.py:46-57 | on the payroll sheet the total row is dropped and the line items sum to 3000 |
| Scenarios.PayrollRowsExport | strealing.py:58-83 | the two payroll rows export as `="1234567890"`, 1000, the remark, `="000015"` and `="0987654321"`, 2000, the remark, `="000004"` |
| Scenarios.PayrollCheck | strealing.py:45-52 | the payroll sheet's computed total is 3000 |
| Scenarios.PayrollExport | strealing.py:45-83 | the payroll sheet produces the two expected export rows whatever total it declares |
| Scenarios.MatchingTotalScenario | strealing.py:45-83 | declaring 3000 gives no warning and the two rows |
| Scenarios.MismatchedTotalScenario | strealing.py:45-83 | declaring 2500 warns and still gives the two rows |
| Scenarios.MissingTotalEmptiesExport | strealing.py:45-83 | a sheet whose only complete row is the last one produces output, and blanking that row's total makes the run halt with no row kept, after showing the computed 1000 |
| TotalRow.CompleteTotalRowIsExported | strealing.py:57 | a total row without a missing cell becomes the last exported row, carrying the declared total as an amount |
| TotalRow.LabelledTotalIsPaid | strealing.py:57 | a total row labelled "TOTAL" is exported as a transfer of 1000 to account "TOTAL" with no bank code |
| TotalRow.CorrectedRunSkipsTotalRow | strealing.py:57 | with the last row removed by position, output rows come only from line items, in order, at most one per line item |
| TotalRow.CorrectedAgreesOnIncompleteTotalRow | strealing.py:57 | when the total row has a missing cell, the corrected run and the program agree |

## Left out

- The Streamlit page is not modelled: the title, upload widget, expanders, banners, remark text input, download button and `@st.cache`. The remark is a parameter of `Upload.Run`.
- File reading and the `.csv`/`.xlsx` dispatch (lines 27-36) are not modelled, because they are library parsing of external files. The model starts from the parsed sheet.
- CSV serialisation and UTF-8 encoding (line 84) are not modelled. The model stops at the cell values of each exported row.
- The timestamped file name (line 87) is not modelled, because it depends on the clock and the `Africa/Lagos` timezone.
- Floating point is not modelled. Amounts are exact `real`s, so float accumulation error in the sum is out of scope.
- Upper-casing covers ASCII letters only. Python's full Unicode case mapping is not modelled.
- The thousands-separator formatting of the warning and success messages (lines 50 and 52) is not modelled.
- The `astype(float)` call at line 81 is not modelled, because its result is discarded.
- A missing declared total (a NaN last cell) is modelled as a mismatch: it warns and output continues. That is what happens with numpy 1.x. With numpy 2.x, `round` of a NaN at line 50 raises `ValueError` and the page stops.
- A `Bank Name` column holding only numbers is not modelled, because bank names are strings in the model. Such a column also makes `.str.upper()` raise.
- Upload.MismatchIsNonFatal: whether output is produced is promised unchanged only when the replaced total keeps the cell present or absent as it was. Blanking a complete last row can leave `dropna` nothing to keep, and the run then halts, as Scenarios.MissingTotalEmptiesExport shows.
- Byte-identical output for identical input needs no lemma: every member is a pure function.
- The model does not prove that every table key is upper case, and it does not prove the table's size. The proof over all 24 keys at once is slow for the verifier. The keys used in the examples are each shown to be their own upper-case form.

## Findings

| source | as written | input that shows it | evidently intended | confidence | as-written member | corrected member |
|---|---|---|---|---|---|---|
| strealing.py:57 | `dropna` removes the trailing total row only when one of its cells is empty | a sheet whose last row is ("TOTAL", 1000, "TOTAL") after one payment of 1000 | the comment on the line says "deleting the last row": remove the total row by position, so it is never exported as a payment | not executed; medium | TotalRow.LabelledTotalIsPaid | TotalRow.CorrectedRunSkipsTotalRow |

=== FILE: ascii.dfy ===
/** ASCII case mapping, standing in for Python's `str.upper`. Characters outside
    `a`..`z` are left unchanged. */
module Ascii {

  predicate IsLower(c: char) {
    'a' <= c <= 'z'
  }

  predicate IsUpper(c: char) {
    'A' <= c <= 'Z'
  }

  function UpperChar(c: char): (u: char)
    ensures IsLower(c) ==> IsUpper(u) && u as int == c as int - 32
    ensures !IsLower(c) ==> u == c
  {
    if IsLower(c) then (c as int - 32) as char else c
  }

  function LowerChar(c: char): (l: char)
    ensures IsUpper(c) ==> IsLower(l) && l as int == c as int + 32
    ensures !IsUpper(c) ==> l == c
  {
    if IsUpper(c) then (c as int + 32) as char else c
  }

  /** True when no character of `s` would change under `Upper`. */
  predicate NoLowercase(s: string) {
    forall c :: c in s ==> !IsLower(c)
  }

  /** Upper-cases every ASCII letter of `s`, position by position. */
  function Upper(s: string): string {
    seq(|s|, i requires 0 <= i < |s| => UpperChar(s[i]))
  }

  /** Lower-cases every ASCII letter of `s`, position by position. */
  function Lower(s: string): string {
    seq(|s|, i requires 0 <= i < |s| => LowerChar(s[i]))
  }

  /** An upper-cased string has no lower-case letter left, and upper-casing it
      again changes nothing. */
  lemma UpperIdempotent(s: string)
    ensures NoLowercase(Upper(s))
    ensures Upper(Upper(s)) == Upper(s)
  {
  }

  /** `Upper` leaves a string without lower-case letters unchanged ... */
  lemma UpperKeepsUpperCase(s: string)
    requires NoLowercase(s)
    ensures Upper(s) == s
  {
  }

  /** ... and changes every other string. */
  lemma UpperChangesLowerCase(s: string)
    requires !NoLowercase(s)
    ensures Upper(s) != s
  {
    var c :| c in s && IsLower(c);
    var i :| 0 <= i < |s| && s[i] == c;
    assert Upper(s)[i] != s[i];
  }

  /** Upper-casing forgets the case of the input: a lower-cased string
      upper-cases to the same text as the original. */
  lemma UpperIgnoresCase(s: string)
    ensures Upper(Lower(s)) == Upper(s)
  {
  }
}

=== FILE: bank_codes.dfy ===
/** The static bank-name to sort-code table and the lookup applied to each row's
    `Bank Name` (strealing.py lines 12-18 and 61-64). */
module BankCodes {
  import opened Wrappers
  import opened Ascii

  /** The table exactly as the program declares it: 24 upper-case names, four
      of them synonyms of another entry. */
  const BankSortCodes: map<string, string> := map[
    "ACCESS BANK" := "000014",
    "ACCESS BANK PLC (DIAMOND)" := "000005",
    "ECO BANK" := "000010",
    "ECOBANK" := "000010",
    "FCMB" := "000003",
    "FIDELITY BANK" := "000007",
    "FIRST BANK OF NIGERIA" := "000016",
    "FIRST CITY MONUMENT BANK" := "000003",
    "GTBANK PLC" := "000013",
    "GTBANK" := "000013",
    "HERITAGE BANK" := "000020",
    "JAIZ BANK" := "000006",
    "KEYSTONE BANK" := "000002",
    "POLARIS BANK" := "000008",
    "PROVIDUS BANK" := "000023",
    "STANBICIBTC BANK" := "000012",
    "STANDARDCHARTERED" := "000021",
    "STERLING BANK" := "000001",
    "UNION BANK" := "000018",
    "UNITED BANK FOR AFRICA" := "000004",
    "UBA" := "000004",
    "UNITY BANK" := "000011",
    "WEMA BANK" := "000017",
    "ZENITH BANK" := "000015"
  ]

  predicate IsDigit(c: char) {
    '0' <= c <= '9'
  }

  /** A sort code is six decimal digits, zero-padded. */
  predicate IsSortCode(s: string) {
    |s| == 6 && forall c :: c in s ==> IsDigit(c)
  }

  /** Every code in the table is a six-digit sort code. */
  lemma TableCodesAreSortCodes()
    ensures forall name :: name in BankSortCodes ==> IsSortCode(BankSortCodes[name])
  {
  }

  /** Synonym keys of the table share one code. */
  lemma EcobankSynonyms()
    ensures BankSortCodes["ECO BANK"] == BankSortCodes["ECOBANK"] == "000010"
  {
  }

  lemma FcmbSynonyms()
    ensures BankSortCodes["FCMB"] == BankSortCodes["FIRST CITY MONUMENT BANK"] == "000003"
  {
  }

  lemma GtbankSynonyms()
    ensures BankSortCodes["GTBANK"] == BankSortCodes["GTBANK PLC"] == "000013"
  {
  }

  lemma UbaSynonyms()
    ensures BankSortCodes["UBA"] == BankSortCodes["UNITED BANK FOR AFRICA"] == "000004"
  {
  }

  /** The sort code for a row's `Bank Name`: the name is upper-cased and looked
      up; a name the table does not know gives an absent code, never an error. */
  function LookupSortCode(bankName: string): (code: Option<string>)
    ensures code.Some? <==> Upper(bankName) in BankSortCodes
    ensures code.Some? ==> code.value == BankSortCodes[Upper(bankName)]
    ensures code.Some? ==> IsSortCode(code.value)
  {
    TableCodesAreSortCodes();
    var key := Upper(bankName);
    if key in BankSortCodes then Some(BankSortCodes[key]) else None
  }

  /** The lookup ignores case: two names that upper-case alike get the same
      code (or both get none). */
  lemma LookupIgnoresCase(a: string, b: string)
    requires Upper(a) == Upper(b)
    ensures LookupSortCode(a) == LookupSortCode(b)
  {
  }

  /** A name and its lower-case and upper-case spellings all resolve alike. */
  lemma LookupCaseVariants(name: string)
    ensures LookupSortCode(Lower(name)) == LookupSortCode(name)
    ensures LookupSortCode(Upper(name)) == LookupSortCode(name)
  {
    UpperIgnoresCase(name);
    UpperIdempotent(name);
  }

  /** Mixed-case and lower-case spellings of known banks, synonyms included,
      find their code. */
  lemma LookupMixedCase()
    ensures LookupSortCode("Gtbank") == Some("000013")
    ensures LookupSortCode("uba") == Some("000004")
  {
    assert Upper("Gtbank") == "GTBANK";
    assert Upper("uba") == "UBA";
  }

  /** A bank the table does not list gets no code. */
  lemma LookupUnknownBank()
    ensures LookupSortCode("Opay") == None
  {
    assert Upper("Opay") == "OPAY";
  }
}

=== FILE: rounding.dfy ===
/** Python's built-in `round` on a number with no `ndigits`: round half to even. */
module Rounding {

  /** Largest integer not above `x`. */
  function Floor(x: real): (f: int)
    ensures f as real <= x < f as real + 1.0
  {
    x.Floor
  }

  /** Rounds `x` to the nearest integer; a tie goes to the even neighbour. */
  function RoundHalfEven(x: real): (n: int)
    ensures -0.5 <= x - n as real <= 0.5
    ensures (x - n as real == 0.5 || x - n as real == -0.5) ==> n % 2 == 0
  {
    var f := Floor(x);
    var d := x - f as real;
    if d < 0.5 then f
    else if d > 0.5 then f + 1
    else if f % 2 == 0 then f
    else f + 1
  }

  /** The two conditions of `RoundHalfEven`'s contract pick out exactly one
      integer, so they describe Python's `round` completely. */
  lemma RoundHalfEvenUnique(x: real, m: int)
    requires -0.5 <= x - m as real <= 0.5
    requires (x - m as real == 0.5 || x - m as real == -0.5) ==> m % 2 == 0
    ensures m == RoundHalfEven(x)
  {
    var n := RoundHalfEven(x);
    assert -1 <= m - n <= 1;
    if x - n as real == 0.5 || x - n as real == -0.5 {
      assert (m - n) % 2 == 0;
    }
  }

  /** Rounding an integer-valued amount gives that integer back. */
  lemma RoundOfInteger(k: int)
    ensures RoundHalfEven(k as real) == k
  {
  }
}

=== FILE: scenarios.dfy ===
/** Worked uploads: a payroll sheet whose declared total matches, the same
    sheet with a wrong declared total, and a sheet whose only complete row is
    the last one. */
module Scenarios {
  import opened Wrappers
  import opened Rounding
  import opened Ascii
  import opened BankCodes
  import opened Sheet
  import opened Totals
  import opened Upload

  const AllColumns := Columns(true, true, true)

  const Zenith := Row(Some("1234567890"), Some(1000.0), Some("ZENITH BANK"), [])
  const Uba := Row(Some("0987654321"), Some(2000.0), Some("UBA"), [])

  /** A total row as usually written: only the amount is filled in. */
  function TotalLine(declared: real): Row {
    Row(None, Some(declared), None, [])
  }

  function Payroll(declared: real): Sheet {
    Sheet(AllColumns, [Zenith, Uba, TotalLine(declared)])
  }

  const Remark := "March payroll"

  /** The two payment rows as they appear in the downloaded file. */
  const ExpectedExport := [
    ExportRow(Wrap("1234567890"), 1000.0, Remark, Some(Wrap("000015"))),
    ExportRow(Wrap("0987654321"), 2000.0, Remark, Some(Wrap("000004")))
  ]

  /** The payroll sheet's bank names are table keys as written. */
  lemma PayrollBankCodes()
    ensures LookupSortCode("ZENITH BANK") == Some("000015")
    ensures LookupSortCode("UBA") == Some("000004")
  {
    assert NoLowercase("ZENITH BANK") && NoLowercase("UBA");
    UpperKeepsUpperCase("ZENITH BANK");
    UpperKeepsUpperCase("UBA");
  }

  /** The payroll sheet's rows: the total row is the one `dropna` removes. */
  lemma PayrollKeptRows(declared: real)
    ensures DropIncomplete(AllColumns, Payroll(declared).rows) == [Zenith, Uba]
    ensures NetSum(LineItems(Payroll(declared).rows)) == 3000.0
  {
    var rows := Payroll(declared).rows;
    assert !HasMissingCell(AllColumns, Zenith) && !HasMissingCell(AllColumns, Uba);
    assert HasMissingCell(AllColumns, TotalLine(declared));
    assert rows[..2] == [Zenith, Uba];
    assert [Zenith, Uba][..1] == [Zenith];
    assert [Zenith][..0] == [];
    assert DropIncomplete(AllColumns, []) == [];
    assert DropIncomplete(AllColumns, [Zenith]) == [Zenith];
    assert DropIncomplete(AllColumns, [Zenith, Uba]) == [Zenith, Uba];
    assert NetSum([]) == 0.0;
    assert NetSum([Zenith]) == 1000.0;
    assert NetSum([Zenith, Uba]) == 3000.0;
  }

  lemma PayrollRowsExport()
    ensures ToExport(ToPreview([Zenith, Uba], Remark)) == ExpectedExport
  {
    var p0 := ToPreviewRow(Zenith, Remark);
    var p1 := ToPreviewRow(Uba, Remark);
    PayrollBankCodes();
    assert ToExportRow(p0) == ExpectedExport[0];
    assert ToExportRow(p1) == ExpectedExport[1];
    assert ToPreview([Zenith, Uba], Remark) == [p0, p1];
    assert ToExport([p0, p1]) == [ToExportRow(p0), ToExportRow(p1)];
  }

  lemma PayrollCheck(declared: real)
    ensures CheckTotal(Payroll(declared)) == Success(TotalCheck(3000, Some(declared)))
  {
    PayrollKeptRows(declared);
    RoundOfInteger(3000);
  }

  lemma PayrollExport(declared: real)
    ensures Run(Payroll(declared), Remark).Produced?
    ensures Run(Payroll(declared), Remark).exported == ExpectedExport
    ensures Run(Payroll(declared), Remark).check == TotalCheck(3000, Some(declared))
  {
    PayrollCheck(declared);
    PayrollKeptRows(declared);
    PayrollRowsExport();
    assert MissingSelected(AllColumns) == [];
  }

  /** Declared 3000 against line items 1000 + 2000: no warning, two rows out. */
  lemma MatchingTotalScenario()
    ensures var out := Run(Payroll(3000.0), Remark);
      out.Produced? && !out.check.Warns() && out.exported == ExpectedExport
  {
    PayrollExport(3000.0);
  }

  /** Declared 2500 against line items 1000 + 2000: a warning, and the same
      two rows are still produced. */
  lemma MismatchedTotalScenario()
    ensures var out := Run(Payroll(2500.0), Remark);
      out.Produced? && out.check.Warns() && out.check.declared == Some(2500.0)
      && out.exported == ExpectedExport
  {
    PayrollExport(2500.0);
  }

  /** A payment row without an account number, which `dropna` removes. */
  const Unnumbered := Row(None, Some(1000.0), Some("UBA"), [])

  /** When the last row is the only complete one, blanking its total leaves
      `dropna` nothing to keep: the export is empty and line 83 raises, after
      the total check has been shown. */
  lemma MissingTotalEmptiesExport()
    ensures Run(Sheet(AllColumns, [Unnumbered, Uba]), Remark).Produced?
    ensures Run(WithDeclared(Sheet(AllColumns, [Unnumbered, Uba]), None), Remark)
      == Halted(NoRowKept, Some(TotalCheck(1000, None)))
  {
    var sheet := Sheet(AllColumns, [Unnumbered, Uba]);
    var other := WithDeclared(sheet, None);
    assert other.rows == [Unnumbered, Uba.(netValue := None)];
    assert HasBankNameValue(sheet.rows) && HasBankNameValue(other.rows) by {
      assert sheet.rows[1].bankName.Some? && other.rows[1].bankName.Some?;
    }
    assert DropIncomplete(AllColumns, sheet.rows) == [Uba] by {
      assert sheet.rows[..1] == [Unnumbered] && [Unnumbered][..0] == [];
      assert DropIncomplete(AllColumns, [Unnumbered]) == [];
    }
    assert DropIncomplete(AllColumns, other.rows) == [] by {
      assert other.rows[..1] == [Unnumbered] && [Unnumbered][..0] == [];
      assert DropIncomplete(AllColumns, [Unnumbered]) == [];
    }
    assert LineItems(other.rows) == [Unnumbered];
    assert NetSum([Unnumbered]) == 1000.0 by {
      assert [Unnumbered][..0] == [];
    }
    RoundOfInteger(1000);
  }
}

=== FILE: sheet.dfy ===
/** The uploaded disbursement sheet after parsing, and the `dropna` row filter
    (strealing.py line 57). */
module Sheet {
  import opened Wrappers

  /** Which of the three columns the program addresses by label exist in the
      uploaded file's header. */
  datatype Columns = Columns(accountNumber: bool, netValue: bool, bankName: bool)
  {
    predicate AllPresent() {
      accountNumber && netValue && bankName
    }
  }

  /** One spreadsheet row. A `None` cell is a missing value (NaN). `others`
      holds the cells of every other column of the file (BVN, names, ...):
      only whether they are missing matters to the program. */
  datatype Row = Row(
    accountNumber: Option<string>,
    netValue: Option<real>,
    bankName: Option<string>,
    others: seq<Option<string>>)

  /** A parsed sheet: its header and its rows in file order. The last row is
      expected to be the total row; nothing marks it as such. */
  datatype Sheet = Sheet(columns: Columns, rows: seq<Row>)

  /** `dropna`'s test: some cell of a column that exists is missing. A field
      whose column is absent from the header is not a cell and is ignored. */
  predicate HasMissingCell(cols: Columns, row: Row) {
    || (cols.accountNumber && row.accountNumber.None?)
    || (cols.netValue && row.netValue.None?)
    || (cols.bankName && row.bankName.None?)
    || None in row.others
  }

  /** The three addressed fields of a row all hold values. */
  predicate Filled(row: Row) {
    row.accountNumber.Some? && row.netValue.Some? && row.bankName.Some?
  }

  lemma CompleteRowIsFilled(cols: Columns, row: Row)
    requires cols.AllPresent() && !HasMissingCell(cols, row)
    ensures Filled(row)
  {
  }

  /** `df.dropna()`: keeps the rows without a missing cell, in their order.
      Rows are not singled out by position, so the trailing total row is kept
      too whenever it has no missing cell. */
  function DropIncomplete(cols: Columns, rows: seq<Row>): (kept: seq<Row>)
    ensures |kept| <= |rows|
    ensures forall k :: 0 <= k < |kept| ==> !HasMissingCell(cols, kept[k])
    decreases |rows|
  {
    if |rows| == 0 then []
    else
      var front := DropIncomplete(cols, rows[..|rows| - 1]);
      var last := rows[|rows| - 1];
      assert rows == rows[..|rows| - 1] + [last];
      if HasMissingCell(cols, last) then front else front + [last]
  }

  /** A row is among the kept rows exactly when it is a row of the sheet
      without a missing cell. */
  lemma {:induction false} DropIncompleteMembers(cols: Columns, rows: seq<Row>)
    ensures forall r :: r in DropIncomplete(cols, rows) <==> r in rows && !HasMissingCell(cols, r)
    decreases |rows|
  {
    if |rows| > 0 {
      var n := |rows| - 1;
      DropIncompleteMembers(cols, rows[..n]);
      DropIncompleteStep(cols, rows);
      assert rows == rows[..n] + [rows[n]];
    }
  }

  /** The filter distributes over concatenation: it decides row by row and
      keeps the survivors in input order. */
  lemma {:induction false} DropIncompleteAppend(cols: Columns, a: seq<Row>, b: seq<Row>)
    ensures DropIncomplete(cols, a + b) == DropIncomplete(cols, a) + DropIncomplete(cols, b)
    decreases |b|
  {
    if |b| == 0 {
      assert a + b == a;
    } else {
      var b' := b[..|b| - 1];
      assert (a + b)[..|a + b| - 1] == a + b';
      DropIncompleteAppend(cols, a, b');
    }
  }

  /** Nothing is dropped exactly when no row has a missing cell. */
  lemma {:induction false} DropIncompleteKeepsAll(cols: Columns, rows: seq<Row>)
    ensures |DropIncomplete(cols, rows)| == |rows|
        <==> forall i :: 0 <= i < |rows| ==> !HasMissingCell(cols, rows[i])
    decreases |rows|
  {
    if |rows| > 0 {
      var front := rows[..|rows| - 1];
      DropIncompleteKeepsAll(cols, front);
      assert forall i :: 0 <= i < |front| ==> front[i] == rows[i];
    }
  }

  /** The filter keeps nothing exactly when every row has a missing cell. */
  lemma DropIncompleteEmpty(cols: Columns, rows: seq<Row>)
    ensures |DropIncomplete(cols, rows)| == 0
        <==> forall i :: 0 <= i < |rows| ==> HasMissingCell(cols, rows[i])
  {
    DropIncompleteMembers(cols, rows);
    if |DropIncomplete(cols, rows)| > 0 {
      assert DropIncomplete(cols, rows)[0] in DropIncomplete(cols, rows);
    }
  }

  /** Positions, in increasing order, of the rows `dropna` keeps. */
  function KeptIndices(cols: Columns, rows: seq<Row>): (idx: seq<nat>)
    ensures forall k :: 0 <= k < |idx| ==> idx[k] < |rows| && !HasMissingCell(cols, rows[idx[k]])
    ensures forall k, l :: 0 <= k < l < |idx| ==> idx[k] < idx[l]
    ensures forall i :: 0 <= i < |rows| && !HasMissingCell(cols, rows[i]) ==> i in idx
    decreases |rows|
  {
    if |rows| == 0 then []
    else
      var n := |rows| - 1;
      var front := KeptIndices(cols, rows[..n]);
      if HasMissingCell(cols, rows[n]) then front else front + [n]
  }

  /** One step of the filter: the last row is kept exactly when it has no
      missing cell, after the survivors of the rows before it. */
  lemma DropIncompleteStep(cols: Columns, rows: seq<Row>)
    requires |rows| > 0
    ensures var n := |rows| - 1;
      DropIncomplete(cols, rows)
        == DropIncomplete(cols, rows[..n]) + (if HasMissingCell(cols, rows[n]) then [] else [rows[n]])
  {
  }

  lemma KeptIndicesStep(cols: Columns, rows: seq<Row>)
    requires |rows| > 0
    ensures var n := |rows| - 1;
      KeptIndices(cols, rows)
        == KeptIndices(cols, rows[..n]) + (if HasMissingCell(cols, rows[n]) then [] else [n])
  {
  }

  /** Extending a sequence of picked rows and their positions in a prefix by
      picked rows of the whole keeps every pick at its position. */
  lemma PicksExtend(picked: seq<Row>, at: seq<nat>, front: seq<Row>, rows: seq<Row>,
                    more: seq<Row>, moreAt: seq<nat>)
    requires |front| <= |rows| && front == rows[..|front|]
    requires |picked| == |at| && |more| == |moreAt|
    requires forall k :: 0 <= k < |at| ==> at[k] < |front| && picked[k] == front[at[k]]
    requires forall k :: 0 <= k < |moreAt| ==> moreAt[k] < |rows| && more[k] == rows[moreAt[k]]
    ensures |picked + more| == |at + moreAt|
    ensures forall k :: 0 <= k < |at + moreAt| ==> (picked + more)[k] == rows[(at + moreAt)[k]]
  {
    forall k | 0 <= k < |at + moreAt| ensures (picked + more)[k] == rows[(at + moreAt)[k]] {
      if k < |at| {
        assert (at + moreAt)[k] == at[k] && (picked + more)[k] == picked[k];
        assert front[at[k]] == rows[at[k]];
      } else {
        assert (at + moreAt)[k] == moreAt[k - |at|] && (picked + more)[k] == more[k - |at|];
      }
    }
  }

  /** The k-th kept row is the row at the k-th kept position: the filter
      preserves the relative order of the rows it keeps. */
  lemma {:induction false} DropIncompleteAtKeptIndices(cols: Columns, rows: seq<Row>)
    ensures |DropIncomplete(cols, rows)| == |KeptIndices(cols, rows)|
    ensures forall k :: 0 <= k < |KeptIndices(cols, rows)| ==>
      DropIncomplete(cols, rows)[k] == rows[KeptIndices(cols, rows)[k]]
    decreases |rows|
  {
    if |rows| > 0 {
      var n := |rows| - 1;
      var front := rows[..n];
      DropIncompleteAtKeptIndices(cols, front);
      DropIncompleteStep(cols, rows);
      KeptIndicesStep(cols, rows);
      var more: seq<Row> := if HasMissingCell(cols, rows[n]) then [] else [rows[n]];
      var moreAt: seq<nat> := if HasMissingCell(cols, rows[n]) then [] else [n];
      PicksExtend(DropIncomplete(cols, front), KeptIndices(cols, front), front, rows, more, moreAt);
    }
  }
}

=== FILE: total_row.dfy ===
/** The trailing total row is removed only as a side effect of `dropna`
    (strealing.py line 57, commented "deleting the last row."). A total row
    without a missing cell is therefore exported as if it were a payment.
    This module shows that on the program as written, and defines and proves a
    run that drops the total row by position, as the comment intends. */
module TotalRow {
  import opened Wrappers
  import opened Ascii
  import opened BankCodes
  import opened Sheet
  import opened Totals
  import opened Upload

  /** As written: when the total row has no missing cell it survives the
      filter and becomes the last exported row, carrying the declared total. */
  lemma CompleteTotalRowIsExported(sheet: Sheet, remark: string)
    requires sheet.columns.AllPresent() && |sheet.rows| > 0
    requires !HasMissingCell(sheet.columns, sheet.rows[|sheet.rows| - 1])
    ensures var out := Run(sheet, remark);
      var last := sheet.rows[|sheet.rows| - 1];
      && out.Produced? && |out.exported| > 0
      && out.exported[|out.exported| - 1].traAmt == last.netValue.value
      && out.exported[|out.exported| - 1].remarks == remark
  {
    var cols, rows := sheet.columns, sheet.rows;
    var kept := DropIncomplete(cols, rows);
    assert kept == DropIncomplete(cols, rows[..|rows| - 1]) + [rows[|rows| - 1]];
    CompleteRowIsFilled(cols, rows[|rows| - 1]);
  }

  /** A concrete sheet: one payment of 1000 and a total row whose account and
      bank cells hold the word "TOTAL". */
  const Payment := Row(Some("1234567890"), Some(1000.0), Some("ZENITH BANK"), [])
  const LabelledTotal := Row(Some("TOTAL"), Some(1000.0), Some("TOTAL"), [])
  const LabelledSheet := Sheet(Columns(true, true, true), [Payment, LabelledTotal])

  lemma LabelledSheetKeepsBothRows()
    ensures DropIncomplete(LabelledSheet.columns, LabelledSheet.rows) == [Payment, LabelledTotal]
  {
    var rows := LabelledSheet.rows;
    assert rows[..1] == [Payment];
    assert [Payment][..0] == [];
  }

  lemma TotalHasNoCode()
    ensures LookupSortCode("TOTAL") == None
  {
    assert NoLowercase("TOTAL");
    UpperKeepsUpperCase("TOTAL");
  }

  /** On that sheet the file to upload holds two transfers of 1000, the
      second to account "TOTAL" with no bank code. */
  lemma LabelledTotalIsPaid()
    ensures var out := Run(LabelledSheet, "");
      && out.Produced? && |out.exported| == 2
      && out.exported[1] == ExportRow(Wrap("TOTAL"), 1000.0, "", None)
  {
    LabelledSheetKeepsBothRows();
    TotalHasNoCode();
    var p := ToPreviewRow(LabelledTotal, "");
    assert p.bankCode == None;
    var out := Run(LabelledSheet, "");
    assert out.preview[1] == p;
  }

  /** Corrected: the last row is set aside by position before the filter. */
  function RunCorrected(sheet: Sheet, remark: string): Outcome {
    match CheckTotal(sheet)
    case Failure(e) => Halted(TotalFailed(e), None)
    case Success(report) =>
      var missing := MissingSelected(sheet.columns);
      if |missing| > 0 then Halted(ColumnsMissing(missing), Some(report))
      else if !HasBankNameValue(sheet.rows) then Halted(BankNameNotText, Some(report))
      else
        var kept := DropIncomplete(sheet.columns, LineItems(sheet.rows));
        if |kept| == 0 then Halted(NoRowKept, Some(report))
        else Produce(report, kept, remark)
  }

  /** The corrected run never exports the total row: it outputs at most one
      row per line item, exactly one when no line item has a missing cell,
      and every output row comes from a line item, in order. */
  lemma CorrectedRunSkipsTotalRow(sheet: Sheet, remark: string)
    requires RunCorrected(sheet, remark).Produced?
    ensures var out := RunCorrected(sheet, remark);
      var items := LineItems(sheet.rows);
      var idx := KeptIndices(sheet.columns, items);
      && |out.exported| <= |sheet.rows| - 1
      && (|out.exported| == |sheet.rows| - 1
          <==> forall i :: 0 <= i < |items| ==> !HasMissingCell(sheet.columns, items[i]))
      && |out.exported| == |idx|
      && forall k :: 0 <= k < |idx| ==>
           idx[k] < |sheet.rows| - 1
           && out.exported[k].traAmt == sheet.rows[idx[k]].netValue.value
  {
    var cols, items := sheet.columns, LineItems(sheet.rows);
    DropIncompleteKeepsAll(cols, items);
    DropIncompleteAtKeptIndices(cols, items);
  }

  /** The correction changes nothing for the sheets the program was written
      for: when the total row has a missing cell, both runs agree. */
  lemma CorrectedAgreesOnIncompleteTotalRow(sheet: Sheet, remark: string)
    requires |sheet.rows| > 0
    requires HasMissingCell(sheet.columns, sheet.rows[|sheet.rows| - 1])
    ensures RunCorrected(sheet, remark) == Run(sheet, remark)
  {
    var rows := sheet.rows;
    assert DropIncomplete(sheet.columns, rows) == DropIncomplete(sheet.columns, rows[..|rows| - 1]);
  }
}

=== FILE: totals.dfy ===
/** The total check (strealing.py lines 45-55): the line items' `Net Value`s
    are summed and rounded, and compared with the last row's declared total. */
module Totals {
  import opened Wrappers
  import opened Sheet
  import opened Rounding

  /** A row's contribution to the sum: pandas' `sum` skips missing values. */
  function Contribution(row: Row): real {
    if row.netValue.Some? then row.netValue.value else 0.0
  }

  /** Sum of the present `Net Value`s of `rows`; 0 for no rows. */
  function NetSum(rows: seq<Row>): real
    decreases |rows|
  {
    if |rows| == 0 then 0.0 else NetSum(rows[..|rows| - 1]) + Contribution(rows[|rows| - 1])
  }

  /** The sum of two blocks of rows is the sum of their sums. */
  lemma {:induction false} NetSumAppend(a: seq<Row>, b: seq<Row>)
    ensures NetSum(a + b) == NetSum(a) + NetSum(b)
    decreases |b|
  {
    if |b| == 0 {
      assert a + b == a;
    } else {
      var b' := b[..|b| - 1];
      assert (a + b)[..|a + b| - 1] == a + b';
      NetSumAppend(a, b');
    }
  }

  /** Rows whose `Net Value` is missing add nothing to the sum. */
  lemma {:induction false} NetSumOfMissing(rows: seq<Row>)
    requires forall i :: 0 <= i < |rows| ==> rows[i].netValue.None?
    ensures NetSum(rows) == 0.0
    decreases |rows|
  {
    if |rows| > 0 {
      NetSumOfMissing(rows[..|rows| - 1]);
    }
  }

  /** `df.iloc[:-1]['Net Value'].sum()` as a left-to-right reduction. */
  method SumNetValues(rows: seq<Row>) returns (total: real)
    ensures total == NetSum(rows)
  {
    total := 0.0;
    var i := 0;
    while i < |rows|
      invariant 0 <= i <= |rows|
      invariant total == NetSum(rows[..i])
    {
      assert rows[..i + 1][..i] == rows[..i];
      total := total + Contribution(rows[i]);
      i := i + 1;
    }
    assert rows[..i] == rows;
  }

  /** Why the total check stops the program: a `KeyError`, caught at line 53. */
  datatype TotalError =
    | NetValueColumnMissing   // the header has no `Net Value` column
    | NoTotalRow              // the sheet has no rows, so there is no row label n - 1

  /** Outcome of a total check that ran: the rounded sum of the line items and
      the last row's `Net Value`, unrounded (`None` when that cell is NaN). */
  datatype TotalCheck = TotalCheck(computed: int, declared: Option<real>)
  {
    /** `sheet_net_value != net_value`: a missing declared total (NaN)
        differs from every number. */
    predicate Warns() {
      declared != Some(computed as real)
    }
  }

  /** The line items: every row except the last, whatever their contents. */
  function LineItems(rows: seq<Row>): seq<Row>
    requires |rows| > 0
  {
    rows[..|rows| - 1]
  }

  /** The total check on a parsed sheet. */
  function CheckTotal(sheet: Sheet): (r: Result<TotalCheck, TotalError>)
    ensures !sheet.columns.netValue ==> r == Failure(NetValueColumnMissing)
    ensures sheet.columns.netValue && |sheet.rows| == 0 ==> r == Failure(NoTotalRow)
    ensures sheet.columns.netValue && |sheet.rows| > 0 ==>
      && r.Success?
      && r.value.declared == sheet.rows[|sheet.rows| - 1].netValue
      && -0.5 <= NetSum(LineItems(sheet.rows)) - r.value.computed as real <= 0.5
      && (NetSum(LineItems(sheet.rows)) - r.value.computed as real == 0.5
          || NetSum(LineItems(sheet.rows)) - r.value.computed as real == -0.5
          ==> r.value.computed % 2 == 0)
  {
    if !sheet.columns.netValue then Failure(NetValueColumnMissing)
    else if |sheet.rows| == 0 then Failure(NoTotalRow)
    else
      var rows := sheet.rows;
      Success(TotalCheck(RoundHalfEven(NetSum(LineItems(rows))), rows[|rows| - 1].netValue))
  }

  /** A warning is raised exactly when the declared total is missing or is not
      the half-to-even rounding of the line items' sum. */
  lemma CheckTotalWarnsIff(sheet: Sheet)
    requires sheet.columns.netValue && |sheet.rows| > 0
    ensures CheckTotal(sheet).Success?
    ensures var last := sheet.rows[|sheet.rows| - 1].netValue;
      CheckTotal(sheet).value.Warns() <==>
        last.None? || last.value != RoundHalfEven(NetSum(LineItems(sheet.rows))) as real
  {
  }

  /** The declared total is compared unrounded: a declared total with a
      fractional part is always reported as wrong, whatever the line items. */
  lemma FractionalTotalAlwaysWarns(sheet: Sheet)
    requires sheet.columns.netValue && |sheet.rows| > 0
    requires var last := sheet.rows[|sheet.rows| - 1].netValue;
      last.Some? && last.value != Floor(last.value) as real
    ensures CheckTotal(sheet).Success? && CheckTotal(sheet).value.Warns()
  {
  }

  /** A whole-number declared total that equals the line items' sum exactly
      raises no warning. */
  lemma ExactWholeTotalPasses(sheet: Sheet, total: int)
    requires sheet.columns.netValue && |sheet.rows| > 0
    requires sheet.rows[|sheet.rows| - 1].netValue == Some(total as real)
    requires NetSum(LineItems(sheet.rows)) == total as real
    ensures CheckTotal(sheet).Success? && !CheckTotal(sheet).value.Warns()
  {
    RoundOfInteger(total);
  }
}

=== FILE: upload.dfy ===
/** The upload pipeline of `run()` (strealing.py lines 45-83): total check,
    `dropna`, column selection, sort-code lookup, renaming, the operator's
    remark, and the export cells. */
module Upload {
  import opened Wrappers
  import opened Ascii
  import opened BankCodes
  import opened Sheet
  import opened Totals

  // ----- Column layout -----

  /** Columns selected from the sheet at line 58. */
  const SelectedColumns: seq<string> := ["Account Number", "Net Value", "Bank Name"]

  /** `DataFrame.rename` with the mapping of line 67. */
  function RenameColumn(name: string): string {
    if name == "Account Number" then "account_number"
    else if name == "Net Value" then "tra_amt"
    else name
  }

  function RenameColumns(names: seq<string>): seq<string>
  {
    seq(|names|, i requires 0 <= i < |names| => RenameColumn(names[i]))
  }

  /** `DataFrame.insert(at, name, ...)`: the new column lands at position `at`. */
  function InsertColumn(names: seq<string>, at: nat, name: string): seq<string>
    requires at <= |names|
  {
    names[..at] + [name] + names[at..]
  }

  /** `DataFrame.drop(columns=name)`: every other column keeps its order. */
  function DropColumn(names: seq<string>, name: string): (r: seq<string>)
    ensures name !in r
    ensures forall c :: c in r <==> c in names && c != name
    decreases |names|
  {
    if |names| == 0 then []
    else if names[0] == name then DropColumn(names[1..], name)
    else [names[0]] + DropColumn(names[1..], name)
  }

  /** Dropping distributes over concatenation, so the remaining columns keep
      their relative order. */
  lemma {:induction false} DropColumnAppend(a: seq<string>, b: seq<string>, name: string)
    ensures DropColumn(a + b, name) == DropColumn(a, name) + DropColumn(b, name)
    decreases |a|
  {
    if |a| > 0 {
      assert (a + b)[1..] == a[1..] + b;
      DropColumnAppend(a[1..], b, name);
    } else {
      assert a + b == b;
    }
  }

  /** Columns of the preview table: selection, `bank_code` appended at line 64,
      renaming at line 67, `remarks` inserted at position 2 at line 72. */
  function PreviewColumns(): seq<string> {
    InsertColumn(RenameColumns(SelectedColumns + ["bank_code"]), 2, "remarks")
  }

  /** Columns of the exported file: the preview without `Bank Name` (line 80). */
  function ExportColumns(): seq<string> {
    DropColumn(PreviewColumns(), "Bank Name")
  }

  /** The export column order follows from `insert(2, ...)`: the remark sits
      between the amount and the bank code, and `Bank Name` is only in the
      preview. */
  lemma ColumnLayout()
    ensures PreviewColumns() == ["account_number", "tra_amt", "remarks", "Bank Name", "bank_code"]
    ensures ExportColumns() == ["account_number", "tra_amt", "remarks", "bank_code"]
    ensures "Bank Name" in PreviewColumns() && "Bank Name" !in ExportColumns()
  {
    var renamed := RenameColumns(SelectedColumns + ["bank_code"]);
    assert renamed == ["account_number", "tra_amt", "Bank Name", "bank_code"];
    var preview := ["account_number", "tra_amt", "remarks", "Bank Name", "bank_code"];
    assert PreviewColumns() == preview;
    assert preview[1..][1..][1..][1..] == ["bank_code"];
  }

  // ----- Rows -----

  /** A row of the preview table, one field per preview column. */
  datatype PreviewRow = PreviewRow(
    accountNumber: string,
    traAmt: real,
    remarks: string,
    bankName: string,
    bankCode: Option<string>)

  /** A row of the exported table, one field per export column; the account
      number and a present bank code are text-preserving formula cells. */
  datatype ExportRow = ExportRow(
    accountNumber: string,
    traAmt: real,
    remarks: string,
    bankCode: Option<string>)

  /** Lines 58-72 for one kept row. */
  function ToPreviewRow(row: Row, remark: string): PreviewRow
    requires Filled(row)
  {
    PreviewRow(
      row.accountNumber.value,
      row.netValue.value,
      remark,
      row.bankName.value,
      LookupSortCode(row.bankName.value))
  }

  function ToPreview(kept: seq<Row>, remark: string): seq<PreviewRow>
    requires forall k :: 0 <= k < |kept| ==> Filled(kept[k])
  {
    seq(|kept|, k requires 0 <= k < |kept| => ToPreviewRow(kept[k], remark))
  }

  /** `'="' + value + '"'`: a formula whose value is the text, so spreadsheet
      tools keep leading zeros. */
  function Wrap(value: string): (cell: string)
    ensures |cell| == |value| + 3
  {
    "=\"" + value + "\""
  }

  /** Reads a wrapped cell back; anything not of the form `="..."` is `None`. */
  function Unwrap(cell: string): Option<string> {
    if |cell| >= 3 && cell[..2] == "=\"" && cell[|cell| - 1] == '"'
    then Some(cell[2..|cell| - 1])
    else None
  }

  /** Wrapping loses nothing: the original text can be read back. */
  lemma UnwrapWrap(value: string)
    ensures Unwrap(Wrap(value)) == Some(value)
  {
    var cell := Wrap(value);
    assert cell[..2] == "=\"";
    assert cell[2..|cell| - 1] == value;
  }

  /** Distinct values give distinct cells. */
  lemma WrapInjective(a: string, b: string)
    requires Wrap(a) == Wrap(b)
    ensures a == b
  {
    UnwrapWrap(a);
    UnwrapWrap(b);
  }

  /** `convert_df` for one row (lines 80-83). A missing bank code stays
      missing: pandas skips missing values when concatenating strings. */
  function ToExportRow(p: PreviewRow): ExportRow {
    ExportRow(Wrap(p.accountNumber), p.traAmt, p.remarks, p.bankCode.Map(Wrap))
  }

  function ToExport(preview: seq<PreviewRow>): seq<ExportRow>
  {
    seq(|preview|, k requires 0 <= k < |preview| => ToExportRow(preview[k]))
  }

  /** Every export cell decodes back to the preview row it came from, except
      for the bank name, which the export does not carry. */
  lemma ExportRecoversPreview(p: PreviewRow)
    ensures Unwrap(ToExportRow(p).accountNumber) == Some(p.accountNumber)
    ensures ToExportRow(p).traAmt == p.traAmt && ToExportRow(p).remarks == p.remarks
    ensures ToExportRow(p).bankCode.None? <==> p.bankCode.None?
    ensures p.bankCode.Some? ==> Unwrap(ToExportRow(p).bankCode.value) == Some(p.bankCode.value)
  {
    UnwrapWrap(p.accountNumber);
    if p.bankCode.Some? {
      UnwrapWrap(p.bankCode.value);
    }
  }

  // ----- The whole run -----

  /** Why a run stops before anything can be downloaded. */
  datatype Failure =
    | TotalFailed(error: TotalError)        // caught at lines 53-55, shown as an error
    | ColumnsMissing(names: seq<string>)    // uncaught `KeyError` from line 58
    | BankNameNotText                       // uncaught `AttributeError` from `.str` at line 62
    | NoRowKept                             // uncaught `TypeError` from `'="' +` at line 83

  /** What one upload produces: either a halt (with the total check's report
      when it was already shown), or the report, the preview and the export. */
  datatype Outcome =
    | Halted(failure: Failure, shown: Option<TotalCheck>)
    | Produced(check: TotalCheck, preview: seq<PreviewRow>, exported: seq<ExportRow>)

  /** Labels of line 58's selection that the header lacks, in selection order. */
  function MissingSelected(cols: Columns): (names: seq<string>)
    ensures |names| == 0 <==> cols.accountNumber && cols.bankName
    ensures "Account Number" in names <==> !cols.accountNumber
    ensures "Bank Name" in names <==> !cols.bankName
    ensures forall n :: n in names ==> n == "Account Number" || n == "Bank Name"
  {
    (if cols.accountNumber then [] else ["Account Number"])
    + (if cols.bankName then [] else ["Bank Name"])
  }

  /** `run()` after the file has been parsed, with the operator's remark. */
  function Run(sheet: Sheet, remark: string): Outcome {
    match CheckTotal(sheet)
    case Failure(e) => Halted(TotalFailed(e), None)
    case Success(report) =>
      var missing := MissingSelected(sheet.columns);
      if |missing| > 0 then Halted(ColumnsMissing(missing), Some(report))
      else if !HasBankNameValue(sheet.rows) then Halted(BankNameNotText, Some(report))
      else
        var kept := DropIncomplete(sheet.columns, sheet.rows);
        if |kept| == 0 then Halted(NoRowKept, Some(report))
        else Produce(report, kept, remark)
  }

  /** pandas gives a column without a single value a numeric type, and `.str`
      then fails on it: `.str.upper()` needs some row with a `Bank Name`. */
  predicate HasBankNameValue(rows: seq<Row>) {
    exists i :: 0 <= i < |rows| && rows[i].bankName.Some?
  }

  /** The sheet with its last row's `Net Value`, the declared total, replaced. */
  function WithDeclared(sheet: Sheet, declared: Option<real>): Sheet
    requires |sheet.rows| > 0
  {
    var n := |sheet.rows| - 1;
    sheet.(rows := sheet.rows[..n] + [sheet.rows[n].(netValue := declared)])
  }

  /** The output built from the rows that survive the filter. */
  function Produce(report: TotalCheck, kept: seq<Row>, remark: string): (out: Outcome)
    requires forall k :: 0 <= k < |kept| ==> Filled(kept[k])
    ensures out.Produced? && out.check == report
    ensures |out.preview| == |out.exported| == |kept|
  {
    var preview := ToPreview(kept, remark);
    Produced(report, preview, ToExport(preview))
  }

  /** The header, the emptiness of the sheet, whether `Bank Name` holds any
      value and whether `dropna` keeps any row decide whether the run halts;
      which check fails first decides the reason. */
  lemma RunHaltsIff(sheet: Sheet, remark: string)
    ensures Run(sheet, remark).Halted?
      <==> || !sheet.columns.AllPresent() || |sheet.rows| == 0 || !HasBankNameValue(sheet.rows)
           || |DropIncomplete(sheet.columns, sheet.rows)| == 0
    ensures !sheet.columns.netValue ==>
      Run(sheet, remark) == Halted(TotalFailed(NetValueColumnMissing), None)
    ensures sheet.columns.netValue && |sheet.rows| == 0 ==>
      Run(sheet, remark) == Halted(TotalFailed(NoTotalRow), None)
    ensures sheet.columns.netValue && |sheet.rows| > 0 && !sheet.columns.AllPresent() ==>
      && Run(sheet, remark).Halted?
      && Run(sheet, remark).failure == ColumnsMissing(MissingSelected(sheet.columns))
      && Run(sheet, remark).shown == Some(CheckTotal(sheet).value)
    ensures sheet.columns.AllPresent() && |sheet.rows| > 0 && !HasBankNameValue(sheet.rows) ==>
      Run(sheet, remark) == Halted(BankNameNotText, Some(CheckTotal(sheet).value))
    ensures && sheet.columns.AllPresent() && |sheet.rows| > 0 && HasBankNameValue(sheet.rows)
            && |DropIncomplete(sheet.columns, sheet.rows)| == 0 ==>
      Run(sheet, remark) == Halted(NoRowKept, Some(CheckTotal(sheet).value))
  {
  }

  /** A wrong declared total is only a warning. Whatever total the last row
      declares, even none, the total check runs exactly as it would with any
      other total and computes the same sum. A replacement that leaves the
      cell present (or absent) as it was also leaves `dropna` keeping rows
      exactly when it did, so the run produces output exactly when it did. */
  lemma MismatchIsNonFatal(sheet: Sheet, remark: string, declared: Option<real>)
    requires |sheet.rows| > 0
    ensures var other := WithDeclared(sheet, declared);
      && (CheckTotal(other).Success? <==> CheckTotal(sheet).Success?)
      && (CheckTotal(other).Success? ==>
            && CheckTotal(other).value.declared == declared
            && CheckTotal(other).value.computed == CheckTotal(sheet).value.computed)
    ensures var other := WithDeclared(sheet, declared);
      declared.Some? == sheet.rows[|sheet.rows| - 1].netValue.Some? ==>
        (Run(other, remark).Produced? <==> Run(sheet, remark).Produced?)
  {
    var other := WithDeclared(sheet, declared);
    var cols := sheet.columns;
    assert LineItems(other.rows) == LineItems(sheet.rows);
    assert forall i :: 0 <= i < |sheet.rows| ==> other.rows[i].bankName == sheet.rows[i].bankName;
    assert HasBankNameValue(other.rows) <==> HasBankNameValue(sheet.rows);
    if declared.Some? == sheet.rows[|sheet.rows| - 1].netValue.Some? {
      assert forall i :: 0 <= i < |sheet.rows| ==>
        (HasMissingCell(cols, other.rows[i]) <==> HasMissingCell(cols, sheet.rows[i]));
      DropIncompleteEmpty(cols, other.rows);
      DropIncompleteEmpty(cols, sheet.rows);
    }
  }

  /** The k-th output row comes from the k-th row `dropna` keeps: its amount,
      the one remark, and the looked-up code of its bank name; the export
      wraps the account number and a present code and omits the bank name. */
  lemma RunRowMapping(sheet: Sheet, remark: string)
    requires Run(sheet, remark).Produced?
    ensures var out := Run(sheet, remark);
      var idx := KeptIndices(sheet.columns, sheet.rows);
      && |out.preview| == |out.exported| == |idx|
      && forall k :: 0 <= k < |idx| ==>
        var row := sheet.rows[idx[k]];
        && Filled(row)
        && out.preview[k].accountNumber == row.accountNumber.value
        && out.preview[k].traAmt == row.netValue.value
        && out.preview[k].remarks == remark
        && out.preview[k].bankName == row.bankName.value
        && out.preview[k].bankCode == LookupSortCode(row.bankName.value)
        && out.exported[k].accountNumber == Wrap(row.accountNumber.value)
        && out.exported[k].traAmt == row.netValue.value
        && out.exported[k].remarks == remark
        && out.exported[k].bankCode == LookupSortCode(row.bankName.value).Map(Wrap)
  {
    var cols, rows := sheet.columns, sheet.rows;
    DropIncompleteAtKeptIndices(cols, rows);
    var idx := KeptIndices(cols, rows);
    forall k | 0 <= k < |idx| ensures Filled(rows[idx[k]]) {
      CompleteRowIsFilled(cols, rows[idx[k]]);
    }
  }

  /** The output has at most as many rows as the sheet, and exactly as many
      when no row (the total row included) has a missing cell. */
  lemma RunOutputSize(sheet: Sheet, remark: string)
    requires Run(sheet, remark).Produced?
    ensures |Run(sheet, remark).exported| <= |sheet.rows|
    ensures |Run(sheet, remark).exported| == |sheet.rows|
      <==> forall i :: 0 <= i < |sheet.rows| ==> !HasMissingCell(sheet.columns, sheet.rows[i])
  {
    DropIncompleteKeepsAll(sheet.columns, sheet.rows);
  }

  /** Every present exported bank code is the wrapped table entry of the
      upper-cased bank name, a six-digit sort code; an absent one means the
      bank name is not in the table. */
  lemma ExportedCodesAreSortCodes(sheet: Sheet, remark: string)
    requires Run(sheet, remark).Produced?
    ensures var out := Run(sheet, remark);
      forall k :: 0 <= k < |out.exported| ==>
        && (out.exported[k].bankCode.Some? ==>
              && Upper(out.preview[k].bankName) in BankSortCodes
              && IsSortCode(BankSortCodes[Upper(out.preview[k].bankName)])
              && out.exported[k].bankCode.value == Wrap(BankSortCodes[Upper(out.preview[k].bankName)]))
        && (out.exported[k].bankCode.None? <==> Upper(out.preview[k].bankName) !in BankSortCodes)
  {
  }

}

=== FILE: wrappers.dfy ===
/** Optional and fallible values used throughout the model: `Option` stands
    for a cell that may be missing (pandas NaN / None), `Result` for a step
    that may halt. */
module Wrappers {

  datatype Option<+T> = None | Some(value: T) {

    /** Applies `f` to the wrapped value, keeping an absent value absent. */
    function Map<U>(f: T -> U): Option<U>
    {
      match this
      case None => None
      case Some(v) => Some(f(v))
    }
  }

  datatype Result<+T, +E> = Success(value: T) | Failure(error: E)
}
